=== FILE: README.md ===
# Brokerage backend: ledger, KYC and support-ticket model in Dafny

This project models the money-moving core of a brokerage-style web application (a Laravel
backend with a React front end). Every request handler is one pure, atomic step from a
state to either a new state or an error response.

- **Ledger** (`ledger.dfy`, `admin_ledger.dfy`). A user has two balance columns, `funding` and
  `holding`, held here as integer cents. There is also an append-only transactions table. The
  model covers four handlers:
  - `transferBalance` moves money between the caller's two balances.
  - `storeDepositRequest` logs a pending bank or crypto deposit.
  - `updateTransactionStatus` is an administrator's approve/reject of a pending row. Approval credits
    funding.
  - `userTransactions` lists the caller's own rows, newest first.

  The central invariant is `Ledger.Invariant`: every balance equals the net movement that the
  completed rows of the log record for it. Every handler preserves it, starting from
  zero-balance users.
- **Card payments** (`payments.dfy`). `createPaymentIntent` rounds the requested amount to whole
  cents and tags the intent with the caller. `confirmPayment` re-reads the intent from the card
  processor and checks that it succeeded and belongs to the caller. It then credits funding by
  the intent's own amount and logs a completed external deposit. The processor is a function
  parameter.
- **KYC** (`kyc.dfy`). Submission is refused while the user's record is pending or approved.
  Otherwise the user's single record is created, or overwritten in place, as pending. An
  administrator then sets approved or rejected; a rejection needs a reason.
- **Support tickets** (`support.dfy`). The handlers are store, show, reply, close and index.
  Every lookup is scoped to the caller, and the listing is sorted by `updated_at`, newest first.
- **Transaction-history filter** (`transaction_filter.dfy`). The page's `handleFilter` is a
  chain of four list filters. It is proved equal to a single filter by a reference predicate.

Shared pieces:
- `wrappers.dfy`: `Option`, `Result`.
- `users.dfy`: the user id.
- `seqs.dfy`: filter, find-first, reverse, subsequence.
- `text.dfy`: substring test, decimal rendering, ASCII case mapping, request trimming.

Request strings reach the controllers through Laravel's default global middleware. `TrimStrings`
strips white space from both ends, and `ConvertEmptyStringsToNull` turns what is left empty into
null. The model applies `Text.Trim` to every request string before validating or storing it. A
blank required field therefore fails validation, and a blank optional rejection reason becomes
null. The application's middleware registration is not part of this model, so this assumes
Laravel's default stack.

A failed request returns `Failure(e)` and carries no new state, so "nothing changes on error"
holds by construction.

Where a ledger would be expected to guarantee more than the code does, the model follows the code:
- Confirming a card payment has no idempotency key. The code never records which
  `payment_intent_id` was applied, so confirming the same succeeded intent twice credits it
  twice (`Payments.ConfirmTwiceCreditsTwice`).
- The code saves the balance and inserts the transaction as two separate writes. Each is
  modelled as one atomic step.
- Transfers are not serialised against each other. The model treats each request as atomic and
  does not model interleavings.

## Model

| member | source | states |
|---|---|---|
| `Ledger.ParseAccount` | backend/app/Http/Controllers/AdminController.php:75-76 | an account name is accepted exactly when it is `funding` or `holding`, and maps back to the same name |
| `Ledger.Init` | backend/database/migrations/2026_01_05_162925_add_balance_columns_to_users_table.php:15-16 | new users start with both balances at zero and an empty log, a state satisfying the ledger invariant |
| `AdminLedger.TransferBalance` | backend/app/Http/Controllers/AdminController.php:71-106 | validation fails unless amount ≥ 0.01, both trimmed names are accounts and they differ. A valid transfer fails with insufficient balance exactly when the source balance is below the amount. On success the source loses the amount, the target gains it, the user's total is unchanged, other users are untouched, and exactly one completed transfer row is appended |
| `AdminLedger.TransferNoOverdraft` | backend/app/Http/Controllers/AdminController.php:84-86 | an overdraft attempt yields the insufficient-balance error naming the source account, with no new state |
| `AdminLedger.TransferAllConserves` | backend/app/Http/Controllers/AdminController.php:84-90 | any run of transfer requests keeps the caller's funding+holding sum and leaves every other user's balances unchanged |
| `AdminLedger.TransferKeepsInvariant` | backend/app/Http/Controllers/AdminController.php:88-100 | after a transfer, balances still equal the net flow of the completed log rows |
| `AdminLedger.TransferAllKeepsInvariant` | backend/app/Http/Controllers/AdminController.php:84-100 | the balance/log correspondence survives any run of transfers |
| `AdminLedger.ParseMethod` | backend/app/Http/Controllers/AdminController.php:144 | a deposit method is accepted exactly when it is `bank` or `crypto`, and becomes the row's `from_account` |
| `AdminLedger.StoreDepositRequest` | backend/app/Http/Controllers/AdminController.php:140-162 | succeeds exactly when amount ≥ 1.00 and the trimmed method is bank or crypto. It leaves every balance unchanged and appends one pending deposit row from the method into funding |
| `AdminLedger.DepositRequestKeepsInvariant` | backend/app/Http/Controllers/AdminController.php:149-156 | a pending row has no balance effect, so the invariant survives |
| `AdminLedger.ParseDecision` | backend/app/Http/Controllers/AdminController.php:169-171 | the decision is accepted exactly when it is `completed` or `rejected`, and is never pending |
| `AdminLedger.UpdateTransactionStatus` | backend/app/Http/Controllers/AdminController.php:167-192 | an unknown decision is a validation error and an unknown id is not-found. A row that is not pending fails "already processed". It succeeds exactly when the decision is valid, the row exists and is pending, and, for `completed`, the owner exists. On success the row's status becomes the decision and nothing else in the log changes. Only `completed` credits the owner's funding by the row's amount; holding and other users are unchanged, and `rejected` changes no balance |
| `AdminLedger.Settle` | backend/app/Http/Controllers/AdminController.php:179-186 | a decision on a pending row succeeds exactly when it is `rejected` or the owner exists. The row takes the decision and nothing else in the log changes. A completion credits exactly the row's amount to the owner's funding; a rejection moves no balance |
| `AdminLedger.ResolveOnce` | backend/app/Http/Controllers/AdminController.php:175-186 | once a row is resolved, every later decision on it fails "already processed", so it can never be credited twice |
| `AdminLedger.ResolveNeverOrphaned` | backend/app/Http/Controllers/AdminController.php:183-185 | in a well-formed state the owner of the row always exists, so approval always finds the user to credit |
| `AdminLedger.ResolveKeepsInvariant` | backend/app/Http/Controllers/AdminController.php:179-186 | approving turns a zero-effect pending row into a completed deposit whose effect equals the funding credit, so the invariant survives |
| `AdminLedger.UserTransactions` | backend/app/Http/Controllers/AdminController.php:117-126 | the result holds exactly the log rows owned by the caller |
| `AdminLedger.UserTransactionsNewestFirst` | backend/app/Http/Controllers/AdminController.php:121-123 | the caller's rows come back in strictly decreasing id (creation) order |
| `Payments.ToCents` | backend/app/Http/Controllers/PaymentController.php:23 | the result is the whole number of cents nearest to the decimal amount, with a half cent rounding up |
| `Payments.CreatePaymentIntent` | backend/app/Http/Controllers/PaymentController.php:12-32 | succeeds exactly when amount ≥ 1 and the trimmed currency has 3 characters. The intent then carries the rounded cents (at least 100), the trimmed and lower-cased currency and the caller's id as metadata |
| `Payments.ConfirmPayment` | backend/app/Http/Controllers/PaymentController.php:43-97 | a blank id is a validation error, and otherwise the trimmed id is retrieved. A failed retrieval is 500, an intent that has not succeeded is 400, and a missing, zero or foreign metadata user id is 403. It succeeds exactly when none of these apply. Success credits funding by the retrieved intent's amount, leaves holding and other users unchanged, and appends one completed external→funding deposit row |
| `Payments.ConfirmTwiceCreditsTwice` | backend/app/Http/Controllers/PaymentController.php:52-86 | confirming an already-confirmed intent again succeeds. Funding rises by twice the amount and two rows are logged: the handler is not idempotent |
| `Payments.CreatedIntentConfirms` | backend/app/Http/Controllers/PaymentController.php:23-76 | an intent created for a user, once it has succeeded, credits that user exactly the cents computed at creation and is refused with 403 for any other user |
| `Payments.ConfirmKeepsInvariant` | backend/app/Http/Controllers/PaymentController.php:72-86 | the credit and the logged completed deposit agree, so the invariant survives |
| `Kyc.ParseDocumentType` | backend/app/Http/Controllers/KycController.php:15 | a document type is accepted exactly when it is passport, id_card or driving_license, and each name maps to its own document type |
| `Kyc.ParseReview` | backend/app/Http/Controllers/AdminController.php:39 | the review status is accepted exactly when it is approved or rejected, each name maps to its own status, and it is never pending |
| `Kyc.Submit` | backend/app/Http/Controllers/KycController.php:12-54 | an invalid submission is a validation error, and a user whose record is pending or approved is refused. Otherwise it succeeds, and the user's record is then pending, has no rejection reason and holds the document type named by the trimmed submitted name and the trimmed number. The upsert is in place: every existing record keeps its id and owner, other users' records are unchanged, and exactly one record, belonging to the caller, is appended when the caller had none and none otherwise |
| `Kyc.SubmitKeepsWellFormed` | backend/app/Http/Controllers/KycController.php:38-48 | the upsert keyed by user never gives any user a second record and keeps ids sequential |
| `Kyc.Status` | backend/app/Http/Controllers/KycController.php:56-65 | the answer is `not_submitted` exactly when the user has no record; otherwise it is a stored record of that user |
| `Kyc.UpdateKycStatus` | backend/app/Http/Controllers/AdminController.php:36-53 | validation needs approved/rejected and, for a rejection, a reason that is not blank. With valid input it succeeds exactly when the id exists, whatever the record's current status. Only that record's status and reason change: the status to the decision, the reason to its trimmed text or to null when it is blank or absent |
| `Kyc.ReviewKeepsWellFormed` | backend/app/Http/Controllers/AdminController.php:43-47 | a review keeps at most one record per user |
| `Kyc.ApprovedBlocksResubmission` | backend/app/Http/Controllers/KycController.php:27-30 | after the user's record is approved, every later submission by that user fails |
| `Kyc.RejectedAllowsResubmission` | backend/app/Http/Controllers/KycController.php:28-48 | after a rejection, a valid resubmission succeeds and the status query then reports the record as pending |
| `Support.ParsePriority` | backend/app/Http/Controllers/SupportController.php:26 | a priority is accepted exactly when it is Low, Medium or High, and each name maps to its own priority |
| `Support.Store` | backend/app/Http/Controllers/SupportController.php:22-42 | succeeds exactly when the trimmed subject has 1–255 characters, the trimmed priority is Low/Medium/High and the message is not blank. The stored subject and message are the trimmed texts, and the stored priority is the one the trimmed name denotes. It appends one ticket owned by the caller: status Open, the first message as its only message, number prefixed `TK-`, no last reply. Existing tickets are unchanged |
| `Support.Show` | backend/app/Http/Controllers/SupportController.php:50-57 | succeeds exactly when a ticket with that id belongs to the caller, and returns that ticket |
| `Support.Reply` | backend/app/Http/Controllers/SupportController.php:59-82 | an unknown or foreign ticket is not-found, checked before a blank message's validation error. Otherwise exactly one message, the trimmed text, is appended, the status becomes Replied whatever it was, and last_reply and updated_at are set to now. Nothing else in that ticket or any other ticket changes |
| `Support.Close` | backend/app/Http/Controllers/SupportController.php:84-93 | succeeds exactly on the caller's own ticket and sets its status to Closed. Only updated_at may also change, and only when the status actually changed; other tickets are untouched |
| `Support.OperationsKeepWellFormed` | backend/app/Http/Controllers/SupportController.php:30-36 | store, reply and close keep ticket ids sequential |
| `Support.ForeignTicketIsNotFound` | backend/app/Http/Controllers/SupportController.php:52-87 | show, reply and close on another user's ticket all answer not-found |
| `Support.ReplyReopensClosed` | backend/app/Http/Controllers/SupportController.php:59-76 | a Closed ticket that receives a reply becomes Replied: reply has no status guard |
| `Support.SortNewestFirst` | backend/app/Http/Controllers/SupportController.php:16 | the result is a permutation of the input ordered by non-increasing updated_at |
| `Support.Index` | backend/app/Http/Controllers/SupportController.php:12-20 | the listing holds exactly the caller's tickets (as a multiset), newest first |
| `TransactionFilter.HandleFilterIsSelection` | src/pages/TransactionHistory.jsx:119-149 | the four-stage pipeline equals one order-preserving filter by the reference predicate `Selected`: each active criterion must accept the record |
| `TransactionFilter.HandleFilterSpec` | src/pages/TransactionHistory.jsx:120-148 | the result is a subsequence of the input and holds exactly the input records that every active criterion accepts |
| `TransactionFilter.NoCriteriaKeepsAll` | src/pages/TransactionHistory.jsx:119-148 | an empty number with type, remark and stock all 'All' returns the whole list |
| `TransactionFilter.SingleCriterion` | src/pages/TransactionHistory.jsx:122-146 | each criterion alone keeps exactly its own matches. Number: the id's digits or a truthy uuid contain it. Plus: deposits or rows into funding. Minus: withdrawals or rows out of funding. Remark: an equal truthy remark, or no remark and the lower-cased selection as the type. Stock: symbol equal, or truthy details containing it |
| `TransactionFilter.LedgerRowsByRemarkAndKind` | src/pages/TransactionHistory.jsx:126-139 | on the backend's own rows, which carry no remark, remark 'Deposit' keeps exactly the deposits, and 'Plus' keeps exactly the deposits and the rows into funding |

## Left out

- Float arithmetic is not modelled. The `(float)` cast of transfer amounts, `round($amount * 100)`
  and `$intent->amount / 100` are replaced by exact integer cents and exact decimal rounding.
- `AdminLedger.TransferBalance` takes its amount in whole cents. The `numeric|min:0.01` rule
  also accepts finer amounts such as 0.015. The source subtracts and adds these as floats, and
  the two-decimal columns round them on save. Such a request cannot be expressed in the model.
- `AdminLedger.TransferAllConserves` and `AdminLedger.TransferKeepsInvariant` hold for
  whole-cent requests only. For a finer amount, whether the source keeps funding+holding
  depends on how each column rounds the stored value.
- `AdminLedger.StoreDepositRequest` takes its amount in whole cents. The `numeric|min:1` rule
  also accepts finer amounts, which the row's two-decimal `amount` column rounds on save.
- `Payments.ToCents` is stated for non-negative amounts only, with halves rounding up. PHP's
  `round` rounds halves away from zero, but validation already rejects amounts below 1, so
  negative amounts never reach it.
- Column capacity is not modelled. Balances are unbounded naturals, so the 15-digit limit of
  `decimal(15,2)` and the database's behaviour on overflow are absent.
- Partial failure is not modelled. The source writes the balance and the transaction row
  separately, and in `updateTransactionStatus` it saves the status before crediting. Each handler
  is one atomic step. A row whose owner has been deleted gets an explicit `OwnerNotFound` error;
  in the source this would be an exception after the status was saved.
- Concurrency and lost updates between simultaneous requests are not modelled.
- The card-processor SDK calls (`PaymentIntent::create`, `PaymentIntent::retrieve`) are not
  modelled. Creation returns the parameters that would be sent. Retrieval is the `gateway`
  function parameter, and `None` stands for a thrown exception.
- Authentication, the admin middleware and route registration are not modelled. The caller is a
  user id that exists in the state.
- File uploads and storage are reduced to an image flag and a size for validation. The stored
  paths are inputs.
- Random ticket codes and clock readings are inputs.
- `Support.Close`: the timestamp behaviour follows Eloquent's `save`, which writes `updated_at`
  only when an attribute changed. Closing an already-closed ticket therefore leaves it
  untouched.
- Listing order ties are left open. `created_at`/`updated_at` ties have no defined SQL order. The
  model orders transactions by id and sorts tickets with a stable insertion sort, so of two
  tickets with equal timestamps the earlier-listed one comes first.
- `toLowerCase`, `strtolower` and `strtoupper` are modelled on ASCII letters only.
- `Support.OperationsKeepWellFormed` does not cover the separate ticket_messages table. Messages
  are embedded in their ticket in insertion order, and their attachments field is not modelled.
- Other endpoints of the same controllers are not modelled: listing all users, pending KYC and
  all transactions, payment settings and the stock list.
- `AdminLedger.ResolveNeverOrphaned` holds only for runs without deletions. `deleteUser`
  (AdminController.php:58-64) is not modelled, so the model's user set never shrinks. The source
  removes the user together with their balances, and unless the database cascades the deletion,
  that user's transactions are left with an owner that no longer exists. `Ledger.WellFormed`
  excludes exactly that state, and it is the state that reaches the `OwnerNotFound` branch.
- `Payments.ConfirmPayment` credits the intent's amount divided by 100 whatever currency the
  intent was created in (PaymentController.php:27 and :72). A payment in a currency without
  cents, or in a currency other than the balance's, is credited at a different value than was
  paid. The model's intent carries no currency, as the code ignores it.
- `Text.IsSpace` covers the ASCII white-space characters, U+FEFF and U+200B. Other Unicode space
  characters that the trimming pattern may also strip, such as U+00A0, are kept by the model.
- The log effects of `confirmPayment` are not modelled. These are the `Log::warning` on the
  owner-mismatch 403 path and the `Log::error` on the 500 path. The model has no log sink, and
  these calls change no balance or row.

=== FILE: admin_ledger.dfy ===
/**
 * The ledger endpoints of the admin controller: balance transfer, deposit request, the
 * administrator's approve/reject of a pending row, and the caller's own transaction history.
 * Each handler is one atomic step from a state to a new state or an error response.
 */
module AdminLedger {
  import opened Wrappers
  import opened Users
  import opened Seqs
  import opened Text
  import opened Ledger

  // ---------------------------------------------------------------- transferBalance

  /** The body of `POST /transfer`: amount in cents, account names as sent. */
  datatype TransferRequest = TransferRequest(amount: int, from: string, to: string)

  /**
   * `amount` at least 0.01, both names in `funding,holding`, and `to` different from `from`; the
   * rules see the names after the request-trimming middleware.
   */
  predicate TransferRequestValid(req: TransferRequest) {
    req.amount >= 1 && ParseAccount(Trim(req.from)).Some? && ParseAccount(Trim(req.to)).Some?
    && Trim(req.to) != Trim(req.from)
  }

  /** Move `amount` from one of the caller's balances to the other and log a completed transfer. */
  function TransferBalance(s: State, user: UserId, req: TransferRequest): (r: Result<State, Error>)
    requires user in s.users
    ensures !TransferRequestValid(req) ==> r == Failure(ValidationFailed)
    ensures TransferRequestValid(req) ==>
      var from := ParseAccount(Trim(req.from)).value;
      (r.Failure? <==> Balance(s.users[user], from) < req.amount) &&
      (r.Failure? ==> r == Failure(InsufficientBalance(from)))
    ensures r.Success? ==> r.value.users.Keys == s.users.Keys
    ensures r.Success? ==>
      var from, to := ParseAccount(Trim(req.from)).value, ParseAccount(Trim(req.to)).value;
      var before, after := s.users[user], r.value.users[user];
      && Balance(after, from) == Balance(before, from) - req.amount
      && Balance(after, to) == Balance(before, to) + req.amount
      && Total(after) == Total(before)
      && (forall v :: v in s.users && v != user ==> r.value.users[v] == s.users[v])
      && r.value.log == s.log + [Transaction(|s.log| + 1, user, Transfer, req.amount, from, to, Completed)]
  {
    if !TransferRequestValid(req) then Failure(ValidationFailed)
    else
      var from, to := ParseAccount(Trim(req.from)).value, ParseAccount(Trim(req.to)).value;
      var b := s.users[user];
      if Balance(b, from) < req.amount then Failure(InsufficientBalance(from))
      else
        var moved := Credit(Debit(b, from, req.amount), to, req.amount);
        Success(Append(s.(users := s.users[user := moved]), user, Transfer, req.amount, from, to, Completed))
  }

  /** An overdraft attempt is refused and leaves balances and log exactly as they were. */
  lemma TransferNoOverdraft(s: State, user: UserId, req: TransferRequest)
    requires user in s.users && TransferRequestValid(req)
    requires Balance(s.users[user], ParseAccount(Trim(req.from)).value) < req.amount
    ensures TransferBalance(s, user, req) == Failure(InsufficientBalance(ParseAccount(Trim(req.from)).value))
  {
  }

  /** The state after a run of transfer requests from one user, skipping the refused ones. */
  function TransferAll(s: State, user: UserId, reqs: seq<TransferRequest>): (r: State)
    requires user in s.users
    ensures user in r.users
    decreases |reqs|
  {
    if reqs == [] then s
    else
      var next := TransferBalance(s, user, reqs[0]);
      TransferAll(if next.Success? then next.value else s, user, reqs[1..])
  }

  /** Conservation: no run of transfers creates or destroys money, for the caller or anyone else. */
  lemma {:induction false} TransferAllConserves(s: State, user: UserId, reqs: seq<TransferRequest>)
    requires user in s.users
    ensures TransferAll(s, user, reqs).users.Keys == s.users.Keys
    ensures Total(TransferAll(s, user, reqs).users[user]) == Total(s.users[user])
    ensures forall v :: v in s.users && v != user ==> TransferAll(s, user, reqs).users[v] == s.users[v]
    decreases |reqs|
  {
    if reqs != [] {
      var next := TransferBalance(s, user, reqs[0]);
      var s' := if next.Success? then next.value else s;
      TransferAllConserves(s', user, reqs[1..]);
    }
  }

  /** Any run of transfers keeps the balances equal to what the log records. */
  lemma {:induction false} TransferAllKeepsInvariant(s: State, user: UserId, reqs: seq<TransferRequest>)
    requires user in s.users && Invariant(s)
    ensures Invariant(TransferAll(s, user, reqs))
    decreases |reqs|
  {
    if reqs != [] {
      var next := TransferBalance(s, user, reqs[0]);
      TransferKeepsInvariant(s, user, reqs[0]);
      var s' := if next.Success? then next.value else s;
      TransferAllKeepsInvariant(s', user, reqs[1..]);
    }
  }

  // ---------------------------------------------------------------- storeDepositRequest

  /** The body of `POST /admin/deposit-request`: amount in cents and the payment rail. */
  datatype DepositRequest = DepositRequest(amount: int, rail: string)

  /** The `in:bank,crypto` rule; the method name becomes the row's `from_account`. */
  function ParseMethod(s: string): (r: Option<Endpoint>)
    ensures r.Some? <==> s == "bank" || s == "crypto"
    ensures r.Some? ==> EndpointName(r.value) == s && (r.value == Bank || r.value == Crypto)
  {
    if s == "bank" then Some(Bank) else if s == "crypto" then Some(Crypto) else None
  }

  /** Log a pending deposit of at least 1.00 into funding; no balance moves until it is approved. */
  function StoreDepositRequest(s: State, user: UserId, req: DepositRequest): (r: Result<State, Error>)
    requires user in s.users
    ensures r.Success? <==> req.amount >= 100 && ParseMethod(Trim(req.rail)).Some?
    ensures r.Failure? ==> r.error == ValidationFailed
    ensures r.Success? ==>
      && r.value.users == s.users
      && r.value.log == s.log + [Transaction(|s.log| + 1, user, Deposit, req.amount,
                                             ParseMethod(Trim(req.rail)).value, Funding, Pending)]
  {
    if req.amount < 100 then Failure(ValidationFailed)
    else match ParseMethod(Trim(req.rail))
      case None => Failure(ValidationFailed)
      case Some(rail) => Success(Append(s, user, Deposit, req.amount, rail, Funding, Pending))
  }

  // ---------------------------------------------------------------- updateTransactionStatus

  /** The `in:completed,rejected` rule on the administrator's decision. */
  function ParseDecision(s: string): (r: Option<TxStatus>)
    ensures r.Some? <==> s == "completed" || s == "rejected"
    ensures r.Some? ==> r.value != Pending
    ensures r == Some(Completed) <==> s == "completed"
  {
    if s == "completed" then Some(Completed) else if s == "rejected" then Some(Rejected) else None
  }

  /** `Transaction::findOrFail($id)`. */
  function FindTransaction(log: seq<Transaction>, id: int): Option<nat> {
    FindFirst((t: Transaction) => t.id == id, log)
  }

  /**
   * Settle a pending row: it takes the decision as its status and, only when the decision is
   * `completed`, its amount is credited to the owner's funding balance.
   */
  function UpdateTransactionStatus(s: State, id: int, status: string): (r: Result<State, Error>)
    ensures ParseDecision(Trim(status)).None? ==> r == Failure(ValidationFailed)
    ensures ParseDecision(Trim(status)).Some? && FindTransaction(s.log, id).None? ==> r == Failure(NotFound)
    ensures ParseDecision(Trim(status)).Some? && FindTransaction(s.log, id).Some? ==>
      var t := s.log[FindTransaction(s.log, id).value];
      (t.status != Pending ==> r == Failure(AlreadyProcessed)) &&
      (t.status == Pending && ParseDecision(Trim(status)) == Some(Completed) && t.userId !in s.users ==>
         r == Failure(OwnerNotFound))
    ensures r.Success? <==>
      && ParseDecision(Trim(status)).Some?
      && FindTransaction(s.log, id).Some?
      && var t := s.log[FindTransaction(s.log, id).value];
         t.status == Pending && (ParseDecision(Trim(status)) == Some(Rejected) || t.userId in s.users)
    ensures r.Success? ==>
      var i := FindTransaction(s.log, id).value;
      var t, d := s.log[i], ParseDecision(Trim(status)).value;
      && t.id == id && t.status == Pending
      && r.value.log == s.log[i := t.(status := d)]
      && r.value.users.Keys == s.users.Keys
      && (d == Rejected ==> r.value.users == s.users)
      && (d == Completed ==>
            && r.value.users[t.userId].funding == s.users[t.userId].funding + t.amount
            && r.value.users[t.userId].holding == s.users[t.userId].holding
            && forall v :: v in s.users && v != t.userId ==> r.value.users[v] == s.users[v])
  {
    match ParseDecision(Trim(status))
    case None => Failure(ValidationFailed)
    case Some(d) =>
      match FindTransaction(s.log, id)
      case None => Failure(NotFound)
      case Some(i) =>
        if s.log[i].status != Pending then Failure(AlreadyProcessed) else Settle(s, i, d)
  }

  /**
   * The effect of a decision on pending row `i`: the row takes the decision, and a completion
   * credits the owner's funding (or fails when the owner row is gone).
   */
  function Settle(s: State, i: nat, d: TxStatus): (r: Result<State, Error>)
    requires i < |s.log| && s.log[i].status == Pending && d != Pending
    ensures r.Success? <==> d == Rejected || s.log[i].userId in s.users
    ensures r.Failure? ==> r.error == OwnerNotFound
    ensures r.Success? ==>
      var t := s.log[i];
      && r.value.log == s.log[i := t.(status := d)]
      && r.value.users.Keys == s.users.Keys
      && (d == Rejected ==> r.value.users == s.users)
      && (d == Completed ==>
            && r.value.users[t.userId].funding == s.users[t.userId].funding + t.amount
            && r.value.users[t.userId].holding == s.users[t.userId].holding
            && forall v :: v in s.users && v != t.userId ==> r.value.users[v] == s.users[v])
  {
    var t := s.log[i];
    if d == Rejected then Success(s.(log := s.log[i := t.(status := d)]))
    else if t.userId !in s.users then Failure(OwnerNotFound)
    else
      var credited := Credit(s.users[t.userId], Funding, t.amount);
      Success(State(s.users[t.userId := credited], s.log[i := t.(status := d)]))
  }

  /** A row is resolved at most once: any second decision fails and the funding credit is not repeated. */
  lemma ResolveOnce(s: State, id: int, first: string, second: string)
    requires UpdateTransactionStatus(s, id, first).Success?
    requires ParseDecision(Trim(second)).Some?
    ensures UpdateTransactionStatus(UpdateTransactionStatus(s, id, first).value, id, second) == Failure(AlreadyProcessed)
  {
    var s1 := UpdateTransactionStatus(s, id, first).value;
    var i := FindTransaction(s.log, id).value;
    assert forall j :: 0 <= j < |s1.log| ==> s1.log[j].id == s.log[j].id;
    assert FindTransaction(s1.log, id) == Some(i);
  }

  /** In a well-formed state the owner of a row always exists, so approval never hits the missing-owner branch. */
  lemma ResolveNeverOrphaned(s: State, id: int, status: string)
    requires WellFormed(s)
    ensures UpdateTransactionStatus(s, id, status) != Failure(OwnerNotFound)
  {
  }

  // ---------------------------------------------------------------- userTransactions

  /** `GET /transactions`: the caller's rows, newest first. */
  function UserTransactions(s: State, user: UserId): (r: seq<Transaction>)
    ensures forall t :: t in r <==> t in s.log && t.userId == user
    ensures |r| <= |s.log|
  {
    Reverse(Filter((t: Transaction) => t.userId == user, s.log))
  }

  /** Rows come back in strictly decreasing id order, i.e. newest first. */
  lemma UserTransactionsNewestFirst(s: State, user: UserId)
    requires WellFormed(s)
    ensures forall i, j :: 0 <= i < j < |UserTransactions(s, user)| ==>
      UserTransactions(s, user)[i].id > UserTransactions(s, user)[j].id
  {
    var mine := (t: Transaction) => t.userId == user;
    var key := (t: Transaction) => t.id;
    FilterKeepsIncreasing(mine, key, s.log);
  }

  // ---------------------------------------------------------------- the ledger invariant

  lemma TransferKeepsInvariant(s: State, user: UserId, req: TransferRequest)
    requires user in s.users && Invariant(s)
    ensures TransferBalance(s, user, req).Success? ==> Invariant(TransferBalance(s, user, req).value)
  {
    var r := TransferBalance(s, user, req);
    if r.Success? {
      var s' := r.value;
      var from, to := ParseAccount(Trim(req.from)).value, ParseAccount(Trim(req.to)).value;
      assert from != to by {
        assert EndpointName(from) == Trim(req.from) && EndpointName(to) == Trim(req.to);
      }
      var t := Transaction(|s.log| + 1, user, Transfer, req.amount, from, to, Completed);
      assert s'.log == s.log + [t];
      forall u | u in s'.users
        ensures s'.users[u].funding == s.users[u].funding + Effect(t, u, Funding)
        ensures s'.users[u].holding == s.users[u].holding + Effect(t, u, Holding)
      {
        if u == user {
          var before, after := s.users[user], s'.users[user];
          assert Balance(after, from) == Balance(before, from) - req.amount;
          assert Balance(after, to) == Balance(before, to) + req.amount;
        }
      }
      AppendKeepsConsistent(s, s'.users, t);
      AppendKeepsWellFormed(s, s'.users, t);
    }
  }

  lemma DepositRequestKeepsInvariant(s: State, user: UserId, req: DepositRequest)
    requires user in s.users && Invariant(s)
    ensures StoreDepositRequest(s, user, req).Success? ==> Invariant(StoreDepositRequest(s, user, req).value)
  {
    var r := StoreDepositRequest(s, user, req);
    if r.Success? {
      var s' := r.value;
      var t := Transaction(|s.log| + 1, user, Deposit, req.amount, ParseMethod(Trim(req.rail)).value, Funding, Pending);
      assert s'.log == s.log + [t] && s'.users == s.users;
      assert forall u :: Effect(t, u, Funding) == 0 && Effect(t, u, Holding) == 0;
      AppendKeepsConsistent(s, s'.users, t);
      AppendKeepsWellFormed(s, s'.users, t);
    }
  }

  /** Approval turns a zero-effect pending row into a completed one exactly as the funding credit does. */
  lemma ResolveKeepsInvariant(s: State, id: int, status: string)
    requires Invariant(s)
    ensures UpdateTransactionStatus(s, id, status).Success? ==> Invariant(UpdateTransactionStatus(s, id, status).value)
  {
    var r := UpdateTransactionStatus(s, id, status);
    if r.Success? {
      var s' := r.value;
      var i := FindTransaction(s.log, id).value;
      var t := s.log[i];
      var t' := s'.log[i];
      assert PendingShape(t);
      forall u | u in s'.users
        ensures s'.users[u].funding == Net(s'.log, u, Funding)
        ensures s'.users[u].holding == Net(s'.log, u, Holding)
      {
        NetUpdate(s.log, i, t', u, Funding);
        NetUpdate(s.log, i, t', u, Holding);
      }
    }
  }
}

=== FILE: kyc.dfy ===
/**
 * The KYC record lifecycle: a user submits identity documents, which creates (or, after a
 * rejection, overwrites) their single record as pending; an administrator approves or rejects
 * it. Uploaded files are reduced to the storage paths they are saved under, given as inputs.
 */
module Kyc {
  import opened Wrappers
  import opened Users
  import opened Seqs
  import opened Text

  datatype KycStatus = Pending | Approved | Rejected

  datatype DocumentType = Passport | IdCard | DrivingLicense

  /** An uploaded file as validation sees it. */
  datatype Upload = Upload(isImage: bool, kilobytes: nat)

  /** The multipart body of `POST /kyc/submit`. */
  datatype Submission = Submission(
    documentType: string,
    documentNumber: string,
    front: Option<Upload>,
    back: Option<Upload>)

  /** One row of the kyc_records table. */
  datatype KycRecord = KycRecord(
    id: nat,
    userId: UserId,
    documentType: DocumentType,
    documentNumber: string,
    frontPath: string,
    backPath: Option<string>,
    status: KycStatus,
    rejectionReason: Option<string>)

  datatype State = State(records: seq<KycRecord>)

  datatype Error =
    | ValidationFailed   // 422
    | AlreadySubmitted   // 400 "You already have a KYC record in process or approved."
    | NotFound           // 404 from findOrFail

  /** What `GET /kyc/status` answers. */
  datatype StatusView = NotSubmitted | Submitted(record: KycRecord)

  /** The `in:passport,id_card,driving_license` rule. */
  function ParseDocumentType(s: string): (r: Option<DocumentType>)
    ensures r.Some? <==> s == "passport" || s == "id_card" || s == "driving_license"
    ensures r == Some(Passport) <==> s == "passport"
    ensures r == Some(IdCard) <==> s == "id_card"
    ensures r == Some(DrivingLicense) <==> s == "driving_license"
  {
    if s == "passport" then Some(Passport)
    else if s == "id_card" then Some(IdCard)
    else if s == "driving_license" then Some(DrivingLicense)
    else None
  }

  /** The `image|max:2048` rule: an image of at most 2 MB. */
  predicate UploadValid(u: Upload) {
    u.isImage && u.kilobytes <= 2048
  }

  /** The submission rules, applied to the text fields as the request-trimming middleware leaves them. */
  predicate SubmissionValid(sub: Submission) {
    && ParseDocumentType(Trim(sub.documentType)).Some?
    && Trim(sub.documentNumber) != ""
    && sub.front.Some? && UploadValid(sub.front.value)
    && (sub.back.Some? ==> UploadValid(sub.back.value))
  }

  /** `$user->kycRecord`: the position of the user's record, if any. */
  function RecordOf(s: State, user: UserId): Option<nat> {
    FindFirst((k: KycRecord) => k.userId == user, s.records)
  }

  /** Ids are 1-based insertion positions and no user has two records. */
  predicate WellFormed(s: State) {
    && (forall i :: 0 <= i < |s.records| ==> s.records[i].id == i + 1)
    && (forall i, j :: 0 <= i < j < |s.records| ==> s.records[i].userId != s.records[j].userId)
  }

  /** True when the user has a record that is still in review or already approved. */
  predicate Blocked(s: State, user: UserId) {
    RecordOf(s, user).Some? && s.records[RecordOf(s, user).value].status in {Pending, Approved}
  }

  /**
   * Accept a submission unless the user already has a pending or approved record; the user's
   * record (new, or the rejected one overwritten in place) becomes pending with no reason.
   */
  function Submit(s: State, user: UserId, sub: Submission, frontPath: string, backPath: string): (r: Result<State, Error>)
    ensures !SubmissionValid(sub) ==> r == Failure(ValidationFailed)
    ensures SubmissionValid(sub) && Blocked(s, user) ==> r == Failure(AlreadySubmitted)
    ensures r.Success? <==> SubmissionValid(sub) && !Blocked(s, user)
    ensures r.Success? ==>
      RecordOf(r.value, user).Some? &&
      var k := r.value.records[RecordOf(r.value, user).value];
      && k.status == Pending && k.rejectionReason == None
      && k.documentType == ParseDocumentType(Trim(sub.documentType)).value
      && k.documentNumber == Trim(sub.documentNumber)
      && k.frontPath == frontPath
      && k.backPath == (if sub.back.Some? then Some(backPath) else None)
    ensures r.Success? ==> |r.value.records| == |s.records| + (if RecordOf(s, user).None? then 1 else 0)
    ensures r.Success? ==> forall i :: 0 <= i < |s.records| ==>
      r.value.records[i].id == s.records[i].id && r.value.records[i].userId == s.records[i].userId
    ensures r.Success? ==> forall i :: 0 <= i < |s.records| && s.records[i].userId != user ==>
      r.value.records[i] == s.records[i]
    ensures r.Success? ==> forall i :: |s.records| <= i < |r.value.records| ==> r.value.records[i].userId == user
  {
    if !SubmissionValid(sub) then Failure(ValidationFailed)
    else if Blocked(s, user) then Failure(AlreadySubmitted)
    else
      var back := if sub.back.Some? then Some(backPath) else None;
      var docType := ParseDocumentType(Trim(sub.documentType)).value;
      var docNumber := Trim(sub.documentNumber);
      match RecordOf(s, user)
      case Some(i) =>
        var k := s.records[i].(documentType := docType, documentNumber := docNumber,
                               frontPath := frontPath, backPath := back,
                               status := Pending, rejectionReason := None);
        var s' := State(s.records[i := k]);
        FindFirstIs((x: KycRecord) => x.userId == user, s'.records, i);
        Success(s')
      case None =>
        var s' := State(s.records + [KycRecord(|s.records| + 1, user, docType, docNumber,
                                               frontPath, back, Pending, None)]);
        FindFirstIs((x: KycRecord) => x.userId == user, s'.records, |s.records|);
        Success(s')
  }

  /** The upsert is keyed by user: a submission never gives anyone a second record. */
  lemma SubmitKeepsWellFormed(s: State, user: UserId, sub: Submission, frontPath: string, backPath: string)
    requires WellFormed(s)
    ensures Submit(s, user, sub, frontPath, backPath).Success? ==>
      WellFormed(Submit(s, user, sub, frontPath, backPath).value)
  {
    var r := Submit(s, user, sub, frontPath, backPath);
    if r.Success? && RecordOf(s, user).None? {
      var n := |s.records|;
      assert |r.value.records| == n + 1;
      assert forall i :: 0 <= i < n ==> r.value.records[i] == s.records[i];
    }
  }

  /** `GET /kyc/status`: `not_submitted` when the user has no record, the record otherwise. */
  function Status(s: State, user: UserId): (v: StatusView)
    ensures v == NotSubmitted <==> forall i :: 0 <= i < |s.records| ==> s.records[i].userId != user
    ensures v.Submitted? ==> v.record in s.records && v.record.userId == user
  {
    match RecordOf(s, user)
    case None => NotSubmitted
    case Some(i) => Submitted(s.records[i])
  }

  /** The `in:approved,rejected` rule on the administrator's decision. */
  function ParseReview(s: string): (r: Option<KycStatus>)
    ensures r.Some? <==> s == "approved" || s == "rejected"
    ensures r.Some? ==> r.value != Pending
    ensures r == Some(Approved) <==> s == "approved"
    ensures r == Some(Rejected) <==> s == "rejected"
  {
    if s == "approved" then Some(Approved) else if s == "rejected" then Some(Rejected) else None
  }

  /**
   * The rejection reason as the controller sees it: trimmed, and null when it was absent or
   * nothing but white space.
   */
  function ReceivedReason(reason: Option<string>): (r: Option<string>)
    ensures r.None? <==> reason.None? || forall k :: 0 <= k < |reason.value| ==> IsSpace(reason.value[k])
    ensures r.Some? ==> r.value == Trim(reason.value) && r.value != ""
  {
    match reason
    case None => None
    case Some(text) =>
      TrimSpec(text);
      if Trim(text) != "" then Some(Trim(text)) else None
  }

  /** The validation of `POST /admin/kyc-update/{id}`: a rejection must carry a non-blank reason. */
  predicate ReviewValid(status: string, reason: Option<string>) {
    ParseReview(Trim(status)).Some? && (Trim(status) == "rejected" ==> ReceivedReason(reason).Some?)
  }

  /**
   * Overwrite the status and rejection reason of record `id`. The record's current status is not
   * consulted, so an approved record can be rejected and vice versa.
   */
  function UpdateKycStatus(s: State, id: int, status: string, reason: Option<string>): (r: Result<State, Error>)
    ensures !ReviewValid(status, reason) ==> r == Failure(ValidationFailed)
    ensures ReviewValid(status, reason) ==>
      (r.Success? <==> exists i :: 0 <= i < |s.records| && s.records[i].id == id)
    ensures r.Failure? && ReviewValid(status, reason) ==> r.error == NotFound
    ensures r.Success? ==>
      var i := FindFirst((k: KycRecord) => k.id == id, s.records).value;
      && |r.value.records| == |s.records|
      && r.value.records[i] == s.records[i].(status := ParseReview(Trim(status)).value, rejectionReason := ReceivedReason(reason))
      && forall j :: 0 <= j < |s.records| && j != i ==> r.value.records[j] == s.records[j]
  {
    if !ReviewValid(status, reason) then Failure(ValidationFailed)
    else match FindFirst((k: KycRecord) => k.id == id, s.records)
      case None => Failure(NotFound)
      case Some(i) =>
        Success(State(s.records[i := s.records[i].(status := ParseReview(Trim(status)).value,
                                                   rejectionReason := ReceivedReason(reason))]))
  }

  lemma ReviewKeepsWellFormed(s: State, id: int, status: string, reason: Option<string>)
    requires WellFormed(s)
    ensures UpdateKycStatus(s, id, status, reason).Success? ==>
      WellFormed(UpdateKycStatus(s, id, status, reason).value)
  {
  }

  /** Approval closes the door: once the user's record is approved, every later submission is refused. */
  lemma ApprovedBlocksResubmission(s: State, user: UserId, sub: Submission, frontPath: string, backPath: string)
    requires WellFormed(s) && RecordOf(s, user).Some?
    requires var k := s.records[RecordOf(s, user).value];
      UpdateKycStatus(s, k.id, "approved", None).Success?
    ensures var k := s.records[RecordOf(s, user).value];
      var s' := UpdateKycStatus(s, k.id, "approved", None).value;
      Submit(s', user, sub, frontPath, backPath).Failure?
  {
    var i := RecordOf(s, user).value;
    var k := s.records[i];
    var s' := UpdateKycStatus(s, k.id, "approved", None).value;
    assert FindFirst((x: KycRecord) => x.id == k.id, s.records) == Some(i);
    assert RecordOf(s', user) == Some(i);
  }

  /** A valid submission over a rejected record succeeds and leaves the record pending. */
  lemma SubmitOverRejected(s: State, user: UserId, sub: Submission, frontPath: string, backPath: string)
    requires RecordOf(s, user).Some? && s.records[RecordOf(s, user).value].status == Rejected
    requires SubmissionValid(sub)
    ensures Submit(s, user, sub, frontPath, backPath).Success?
    ensures Status(Submit(s, user, sub, frontPath, backPath).value, user).Submitted?
    ensures Status(Submit(s, user, sub, frontPath, backPath).value, user).record.status == Pending
  {
    assert !Blocked(s, user);
  }

  /** Rejecting the user's record with a non-blank reason succeeds and leaves it the user's rejected record. */
  lemma RejectUsersRecord(s: State, user: UserId, reason: string)
    requires WellFormed(s) && RecordOf(s, user).Some? && Trim(reason) != ""
    ensures var i := RecordOf(s, user).value;
      var r := UpdateKycStatus(s, s.records[i].id, "rejected", Some(reason));
      r.Success? && RecordOf(r.value, user) == Some(i) && r.value.records[i].status == Rejected
  {
    var i := RecordOf(s, user).value;
    var k := s.records[i];
    FindFirstIs((x: KycRecord) => x.id == k.id, s.records, i);
    TrimKeeps("rejected");
    assert ReviewValid("rejected", Some(reason));
    var r := UpdateKycStatus(s, k.id, "rejected", Some(reason));
    assert r.Success? && r.value.records[i] == k.(status := Rejected, rejectionReason := ReceivedReason(Some(reason)));
    assert forall j :: 0 <= j < i ==> r.value.records[j] == s.records[j];
    FindFirstIs((x: KycRecord) => x.userId == user, r.value.records, i);
  }

  /** A rejected record can be resubmitted, and the resubmission puts it back in review. */
  lemma RejectedAllowsResubmission(s: State, user: UserId, reason: string, sub: Submission, frontPath: string, backPath: string)
    requires WellFormed(s) && RecordOf(s, user).Some? && Trim(reason) != "" && SubmissionValid(sub)
    ensures var k := s.records[RecordOf(s, user).value];
      var rejected := UpdateKycStatus(s, k.id, "rejected", Some(reason));
      && rejected.Success?
      && var r := Submit(rejected.value, user, sub, frontPath, backPath);
         && r.Success?
         && Status(r.value, user).Submitted?
         && Status(r.value, user).record.status == Pending
  {
    var k := s.records[RecordOf(s, user).value];
    RejectUsersRecord(s, user, reason);
    SubmitOverRejected(UpdateKycStatus(s, k.id, "rejected", Some(reason)).value, user, sub, frontPath, backPath);
  }
}

=== FILE: ledger.dfy ===
/**
 * The money-movement data model: a user's funding/holding balance pair and the append-only
 * transaction table. Amounts are integer cents, matching the two-decimal balance columns.
 */
module Ledger {
  import opened Wrappers
  import opened Users

  /** An amount of money in cents (hundredths of the currency unit). */
  type Cents = nat

  /** The values of the `from_account` / `to_account` columns. */
  datatype Endpoint = Funding | Holding | External | Bank | Crypto

  /** The two balance columns a user row carries. */
  type Account = e: Endpoint | e == Funding || e == Holding witness Funding

  datatype TxType = Deposit | Transfer | Withdraw

  datatype TxStatus = Pending | Completed | Rejected

  /** One row of the transactions table. */
  datatype Transaction = Transaction(
    id: nat,
    userId: UserId,
    kind: TxType,
    amount: Cents,
    from: Endpoint,
    to: Endpoint,
    status: TxStatus)

  /** The `funding_balance` and `holding_balance` columns of one user. */
  datatype Balances = Balances(funding: Cents, holding: Cents)

  /** The users' balances and the transaction table, in insertion order. */
  datatype State = State(users: map<UserId, Balances>, log: seq<Transaction>)

  /** The error responses of the admin and payment controllers. */
  datatype Error =
    | ValidationFailed                    // 422 from request validation
    | InsufficientBalance(account: Account) // 422 "Insufficient balance in … account."
    | NotFound                            // 404 from findOrFail
    | AlreadyProcessed                    // 422 "Transaction is already processed."
    | OwnerNotFound                       // the transaction's user row is gone
    | PaymentNotSuccessful                // 400 "Payment not successful"
    | UnauthorizedIntent                  // 403 "Unauthorized payment intent"
    | ConfirmationFailed                  // 500 "Payment confirmation failed"

  /** The wire name of an endpoint, as stored in the account columns. */
  function EndpointName(e: Endpoint): string {
    match e
    case Funding => "funding"
    case Holding => "holding"
    case External => "external"
    case Bank => "bank"
    case Crypto => "crypto"
  }

  /** The `in:funding,holding` validation rule. */
  function ParseAccount(s: string): (r: Option<Account>)
    ensures r.Some? <==> s == "funding" || s == "holding"
    ensures r.Some? ==> EndpointName(r.value) == s
  {
    if s == "funding" then Some(Funding)
    else if s == "holding" then Some(Holding)
    else None
  }

  function Balance(b: Balances, a: Account): Cents {
    if a == Funding then b.funding else b.holding
  }

  function Total(b: Balances): nat {
    b.funding + b.holding
  }

  /** `$user->$field += $amount`. */
  function Credit(b: Balances, a: Account, amount: Cents): (r: Balances)
    ensures Balance(r, a) == Balance(b, a) + amount
    ensures forall o: Account :: o != a ==> Balance(r, o) == Balance(b, o)
  {
    if a == Funding then b.(funding := b.funding + amount) else b.(holding := b.holding + amount)
  }

  /** `$user->$field -= $amount`, only ever applied when the balance covers the amount. */
  function Debit(b: Balances, a: Account, amount: Cents): (r: Balances)
    requires amount <= Balance(b, a)
    ensures Balance(r, a) == Balance(b, a) - amount
    ensures forall o: Account :: o != a ==> Balance(r, o) == Balance(b, o)
  {
    if a == Funding then b.(funding := b.funding - amount) else b.(holding := b.holding - amount)
  }

  /** `Transaction::create`: the new row gets the next auto-increment id. */
  function Append(s: State, user: UserId, kind: TxType, amount: Cents, from: Endpoint, to: Endpoint, status: TxStatus): (r: State)
    ensures r.users == s.users
    ensures |r.log| == |s.log| + 1 && r.log[..|s.log|] == s.log
    ensures r.log[|s.log|] == Transaction(|s.log| + 1, user, kind, amount, from, to, status)
  {
    s.(log := s.log + [Transaction(|s.log| + 1, user, kind, amount, from, to, status)])
  }

  /** A pending row is always a bank or crypto deposit request into funding. */
  predicate PendingShape(t: Transaction) {
    t.status == Pending ==> t.kind == Deposit && t.to == Funding && (t.from == Bank || t.from == Crypto)
  }

  /**
   * Structural facts the database keeps: ids are the 1-based insertion positions, every row
   * belongs to an existing user, and only deposit requests are ever pending.
   */
  predicate WellFormed(s: State) {
    && (forall i :: 0 <= i < |s.log| ==> s.log[i].id == i + 1)
    && (forall i :: 0 <= i < |s.log| ==> s.log[i].userId in s.users)
    && (forall i :: 0 <= i < |s.log| ==> PendingShape(s.log[i]))
  }

  /** What a completed row did to account `a` of user `u`; pending and rejected rows did nothing. */
  function Effect(t: Transaction, u: UserId, a: Account): int {
    if t.userId != u || t.status != Completed then 0
    else (if t.to == a then t.amount else 0) - (if t.from == a then t.amount else 0)
  }

  /** The net movement the log records for account `a` of user `u`. */
  function Net(log: seq<Transaction>, u: UserId, a: Account): int {
    if log == [] then 0 else Net(log[..|log| - 1], u, a) + Effect(log[|log| - 1], u, a)
  }

  /** Every balance is exactly what the completed rows of the log add up to. */
  predicate Consistent(s: State) {
    forall u :: u in s.users ==>
      s.users[u].funding == Net(s.log, u, Funding) && s.users[u].holding == Net(s.log, u, Holding)
  }

  predicate Invariant(s: State) {
    WellFormed(s) && Consistent(s)
  }

  /** Freshly registered users: both balance columns default to 0.00 and no rows exist yet. */
  function Init(users: set<UserId>): (s: State)
    ensures s.users.Keys == users && s.log == []
    ensures forall u :: u in users ==> Total(s.users[u]) == 0
    ensures Invariant(s)
  {
    State(map u | u in users :: Balances(0, 0), [])
  }

  lemma NetAppend(log: seq<Transaction>, t: Transaction, u: UserId, a: Account)
    ensures Net(log + [t], u, a) == Net(log, u, a) + Effect(t, u, a)
  {
    assert (log + [t])[..|log|] == log;
  }

  /** A row that takes the next id, belongs to an existing user and has the pending shape keeps the log well formed. */
  lemma AppendKeepsWellFormed(s: State, users': map<UserId, Balances>, t: Transaction)
    requires WellFormed(s) && users'.Keys == s.users.Keys
    requires t.id == |s.log| + 1 && t.userId in users' && PendingShape(t)
    ensures WellFormed(State(users', s.log + [t]))
  {
    var log' := s.log + [t];
    forall i | 0 <= i < |log'|
      ensures log'[i].id == i + 1 && log'[i].userId in users' && PendingShape(log'[i])
    {
      if i < |s.log| {
        assert log'[i] == s.log[i];
      }
    }
  }

  /**
   * Appending row `t` while moving every balance by exactly `t`'s effect keeps the balances
   * equal to the log's net flow.
   */
  lemma AppendKeepsConsistent(s: State, users': map<UserId, Balances>, t: Transaction)
    requires Consistent(s) && users'.Keys == s.users.Keys
    requires forall u :: u in users' ==>
      && users'[u].funding == s.users[u].funding + Effect(t, u, Funding)
      && users'[u].holding == s.users[u].holding + Effect(t, u, Holding)
    ensures Consistent(State(users', s.log + [t]))
  {
    forall u | u in users'
      ensures users'[u].funding == Net(s.log + [t], u, Funding)
      ensures users'[u].holding == Net(s.log + [t], u, Holding)
    {
      NetAppend(s.log, t, u, Funding);
      NetAppend(s.log, t, u, Holding);
    }
  }

  /** Replacing one row changes the net flow by exactly the difference of the two rows' effects. */
  lemma {:induction false} NetUpdate(log: seq<Transaction>, i: nat, t: Transaction, u: UserId, a: Account)
    requires i < |log|
    ensures Net(log[i := t], u, a) == Net(log, u, a) - Effect(log[i], u, a) + Effect(t, u, a)
    decreases |log|
  {
    var n := |log| - 1;
    var log' := log[i := t];
    if i == n {
      assert log'[..n] == log[..n];
    } else {
      assert log'[..n] == log[..n][i := t];
      NetUpdate(log[..n], i, t, u, a);
    }
  }
}

=== FILE: payments.dfy ===
/**
 * The card-payment controller. Creating an intent turns the requested amount into whole cents
 * tagged with the caller; confirming re-reads the intent from the card processor, checks that it
 * succeeded and belongs to the caller, then credits funding and logs a completed deposit.
 * The processor itself is a parameter: `gateway` maps a payment-intent id to what retrieval
 * returns, `None` standing for a retrieval that throws.
 */
module Payments {
  import opened Wrappers
  import opened Users
  import opened Text
  import opened Ledger

  // ---------------------------------------------------------------- createPaymentIntent

  /** A decimal amount as typed by the client: `digits` × 10^-`scale`. */
  datatype DecimalAmount = DecimalAmount(digits: int, scale: nat)

  datatype IntentRequest = IntentRequest(amount: DecimalAmount, currency: string)

  /** What is sent to the processor: amount in cents, lower-cased currency, the owner in metadata. */
  datatype IntentParams = IntentParams(amount: Cents, currency: string, metadataUserId: UserId)

  function Pow10(k: nat): (r: nat)
    ensures r >= 1
  {
    if k == 0 then 1 else 10 * Pow10(k - 1)
  }

  /** Euclidean division bounds, for a positive divisor. */
  lemma DivBounds(n: int, d: int)
    requires d > 0
    ensures d * (n / d) <= n < d * (n / d) + d
  {
  }

  lemma MulMonotone(a: int, b: int, p: int)
    requires a <= b && p >= 0
    ensures a * p <= b * p
  {
  }

  /** `(n + p) / 2p` is the integer nearest to `n / p`, a half rounding up. */
  lemma RoundHalfUp(n: int, p: int)
    requires n >= 0 && p >= 1
    ensures (n + p) / (2 * p) >= 0
    ensures (2 * ((n + p) / (2 * p)) - 1) * p <= n < (2 * ((n + p) / (2 * p)) + 1) * p
  {
    var c := (n + p) / (2 * p);
    DivBounds(n + p, 2 * p);
    var cp := c * p;
    assert (2 * p) * c == 2 * cp;
    assert (2 * c - 1) * p == 2 * cp - p;
    assert (2 * c + 1) * p == 2 * cp + p;
  }

  /**
   * `(int) round($amount * 100)` for a non-negative amount: the whole number of cents nearest
   * to the amount, a half cent rounding up.
   */
  function ToCents(a: DecimalAmount): (c: nat)
    requires a.digits >= 0
    ensures (2 * c - 1) * Pow10(a.scale) <= 200 * a.digits < (2 * c + 1) * Pow10(a.scale)
  {
    RoundHalfUp(200 * a.digits, Pow10(a.scale));
    (200 * a.digits + Pow10(a.scale)) / (2 * Pow10(a.scale))
  }

  /** An amount of at least one currency unit rounds to at least 100 cents. */
  lemma AtLeastOneUnit(a: DecimalAmount)
    requires a.digits >= Pow10(a.scale)
    ensures ToCents(a) >= 100
  {
    var cents := ToCents(a);
    var p := Pow10(a.scale);
    MulMonotone(p, a.digits, 200);
    if cents < 100 {
      MulMonotone(2 * cents + 1, 199, p);
    }
  }

  /** The `numeric|min:1` rule on the amount and `size:3` on the currency as trimmed by the middleware. */
  predicate IntentRequestValid(req: IntentRequest) {
    req.amount.digits >= Pow10(req.amount.scale) && |Trim(req.currency)| == 3
  }

  function CreatePaymentIntent(user: UserId, req: IntentRequest): (r: Result<IntentParams, Error>)
    ensures r.Success? <==> IntentRequestValid(req)
    ensures r.Failure? ==> r.error == ValidationFailed
    ensures r.Success? ==>
      && r.value.metadataUserId == user
      && r.value.currency == ToLower(Trim(req.currency))
      && r.value.amount >= 100
      && (2 * r.value.amount - 1) * Pow10(req.amount.scale) <= 200 * req.amount.digits
      && 200 * req.amount.digits < (2 * r.value.amount + 1) * Pow10(req.amount.scale)
  {
    if !IntentRequestValid(req) then Failure(ValidationFailed)
    else
      AtLeastOneUnit(req.amount);
      Success(IntentParams(ToCents(req.amount), ToLower(Trim(req.currency)), user))
  }

  // ---------------------------------------------------------------- confirmPayment

  /** The fields of a retrieved payment intent the confirmation reads. */
  datatype Intent = Intent(status: string, amount: Cents, metadataUserId: Option<int>)

  /** `$intentUserId && (int) $intentUserId === (int) $user->id`: a missing or zero id never matches. */
  predicate OwnerMatches(metadataUserId: Option<int>, user: UserId) {
    metadataUserId.Some? && metadataUserId.value != 0 && metadataUserId.value == user
  }

  /**
   * Credit a succeeded intent to the caller's funding balance. The amount comes from the
   * retrieved intent; the request carries only the intent id.
   */
  function ConfirmPayment(s: State, user: UserId, intentId: string, gateway: string -> Option<Intent>): (r: Result<State, Error>)
    requires user in s.users
    ensures Trim(intentId) == "" ==> r == Failure(ValidationFailed)
    ensures Trim(intentId) != "" && gateway(Trim(intentId)).None? ==> r == Failure(ConfirmationFailed)
    ensures Trim(intentId) != "" && gateway(Trim(intentId)).Some? ==>
      var intent := gateway(Trim(intentId)).value;
      (intent.status != "succeeded" ==> r == Failure(PaymentNotSuccessful)) &&
      (intent.status == "succeeded" && !OwnerMatches(intent.metadataUserId, user) ==> r == Failure(UnauthorizedIntent))
    ensures r.Success? <==>
      Trim(intentId) != "" && gateway(Trim(intentId)).Some? && gateway(Trim(intentId)).value.status == "succeeded"
      && OwnerMatches(gateway(Trim(intentId)).value.metadataUserId, user)
    ensures r.Success? ==> r.value.users.Keys == s.users.Keys
    ensures r.Success? ==>
      var amount := gateway(Trim(intentId)).value.amount;
      && r.value.users[user].funding == s.users[user].funding + amount
      && r.value.users[user].holding == s.users[user].holding
      && (forall v :: v in s.users && v != user ==> r.value.users[v] == s.users[v])
      && r.value.log == s.log + [Transaction(|s.log| + 1, user, Deposit, amount, External, Funding, Completed)]
  {
    var id := Trim(intentId);
    if id == "" then Failure(ValidationFailed)
    else match gateway(id)
      case None => Failure(ConfirmationFailed)
      case Some(intent) =>
        if intent.status != "succeeded" then Failure(PaymentNotSuccessful)
        else if !OwnerMatches(intent.metadataUserId, user) then Failure(UnauthorizedIntent)
        else
          var credited := Credit(s.users[user], Funding, intent.amount);
          Success(Append(s.(users := s.users[user := credited]), user, Deposit, intent.amount, External, Funding, Completed))
  }

  /**
   * Nothing records which intents were applied: confirming the same intent a second time
   * succeeds again, crediting its amount twice and logging two deposits.
   */
  lemma ConfirmTwiceCreditsTwice(s: State, user: UserId, intentId: string, gateway: string -> Option<Intent>)
    requires user in s.users
    requires ConfirmPayment(s, user, intentId, gateway).Success?
    ensures var once := ConfirmPayment(s, user, intentId, gateway).value;
      var twice := ConfirmPayment(once, user, intentId, gateway);
      && twice.Success?
      && twice.value.users[user].funding == s.users[user].funding + 2 * gateway(Trim(intentId)).value.amount
      && |twice.value.log| == |s.log| + 2
  {
  }

  /**
   * The intent created for a caller, once the processor reports it succeeded, is credited to
   * that caller for exactly the cents computed at creation, and is refused for anyone else.
   */
  lemma CreatedIntentConfirms(s: State, user: UserId, other: UserId, req: IntentRequest, intentId: string, gateway: string -> Option<Intent>)
    requires user in s.users && other in s.users && other != user && user != 0
    requires CreatePaymentIntent(user, req).Success? && Trim(intentId) != ""
    requires var p := CreatePaymentIntent(user, req).value;
      gateway(Trim(intentId)) == Some(Intent("succeeded", p.amount, Some(p.metadataUserId)))
    ensures var p := CreatePaymentIntent(user, req).value;
      var r := ConfirmPayment(s, user, intentId, gateway);
      r.Success? && r.value.users[user].funding == s.users[user].funding + p.amount
    ensures ConfirmPayment(s, other, intentId, gateway) == Failure(UnauthorizedIntent)
  {
  }

  lemma ConfirmKeepsInvariant(s: State, user: UserId, intentId: string, gateway: string -> Option<Intent>)
    requires user in s.users && Invariant(s)
    ensures ConfirmPayment(s, user, intentId, gateway).Success? ==>
      Invariant(ConfirmPayment(s, user, intentId, gateway).value)
  {
    var r := ConfirmPayment(s, user, intentId, gateway);
    if r.Success? {
      var s' := r.value;
      var amount := gateway(Trim(intentId)).value.amount;
      var t := Transaction(|s.log| + 1, user, Deposit, amount, External, Funding, Completed);
      assert s'.log == s.log + [t];
      assert Effect(t, user, Funding) == amount && Effect(t, user, Holding) == 0;
      assert forall u :: u != user ==> Effect(t, u, Funding) == 0 && Effect(t, u, Holding) == 0;
      AppendKeepsConsistent(s, s'.users, t);
      AppendKeepsWellFormed(s, s'.users, t);
    }
  }
}

=== FILE: seqs.dfy ===
/** Order-preserving list operations used by the listing endpoints and the history filter. */
module Seqs {
  import opened Wrappers

  /** `a` can be obtained from `b` by deleting elements, keeping the order of the rest. */
  ghost predicate IsSubsequence<T>(a: seq<T>, b: seq<T>)
    decreases |b|
  {
    |a| <= |b| &&
    (a == [] || (a[0] == b[0] && IsSubsequence(a[1..], b[1..])) || IsSubsequence(a, b[1..]))
  }

  /** Array.prototype.filter / a SQL `where`: the elements of `s` satisfying `p`, in order. */
  function Filter<T(!new)>(p: T -> bool, s: seq<T>): (r: seq<T>)
    ensures |r| <= |s|
    ensures forall x :: x in r <==> x in s && p(x)
    ensures forall i :: 0 <= i < |r| ==> p(r[i])
  {
    if s == [] then []
    else if p(s[0]) then [s[0]] + Filter(p, s[1..])
    else Filter(p, s[1..])
  }

  /** The elements of `s`, last first. */
  function Reverse<T(!new)>(s: seq<T>): (r: seq<T>)
    ensures |r| == |s|
    ensures forall x :: x in r <==> x in s
    ensures forall i :: 0 <= i < |s| ==> r[i] == s[|s| - 1 - i]
  {
    if s == [] then [] else [s[|s| - 1]] + Reverse(s[..|s| - 1])
  }

  lemma {:induction false} FilterIsSubsequence<T(!new)>(p: T -> bool, s: seq<T>)
    ensures IsSubsequence(Filter(p, s), s)
    decreases |s|
  {
    if s != [] {
      FilterIsSubsequence(p, s[1..]);
      var r := Filter(p, s[1..]);
      if p(s[0]) {
        assert Filter(p, s) == [s[0]] + r;
        assert ([s[0]] + r)[1..] == r;
      } else {
        SubsequenceOfTail(r, s);
      }
    }
  }

  /** A subsequence of the tail of `b` is a subsequence of `b`. */
  lemma SubsequenceOfTail<T>(a: seq<T>, b: seq<T>)
    requires b != [] && IsSubsequence(a, b[1..])
    ensures IsSubsequence(a, b)
  {
  }

  /** Filtering by `p` and then by `q` is filtering once by any `r` that is their conjunction. */
  lemma {:induction false} FilterFilter<T(!new)>(p: T -> bool, q: T -> bool, r: T -> bool, s: seq<T>)
    requires forall x :: r(x) == (p(x) && q(x))
    ensures Filter(q, Filter(p, s)) == Filter(r, s)
    decreases |s|
  {
    if s != [] {
      FilterFilter(p, q, r, s[1..]);
      if p(s[0]) {
        assert Filter(p, s) == [s[0]] + Filter(p, s[1..]);
        assert (Filter(p, s))[1..] == Filter(p, s[1..]);
      }
    }
  }

  /** Filter only looks at the elements of `s`: two predicates that agree there select the same list. */
  lemma {:induction false} FilterCongruent<T(!new)>(p: T -> bool, q: T -> bool, s: seq<T>)
    requires forall x :: x in s ==> p(x) == q(x)
    ensures Filter(p, s) == Filter(q, s)
    decreases |s|
  {
    if s != [] {
      assert s[0] in s;
      forall x | x in s[1..] ensures p(x) == q(x) {
        assert x in s;
      }
      FilterCongruent(p, q, s[1..]);
    }
  }

  /** A predicate every element satisfies keeps the whole list. */
  lemma {:induction false} FilterKeepsAll<T(!new)>(p: T -> bool, s: seq<T>)
    requires forall x :: x in s ==> p(x)
    ensures Filter(p, s) == s
    decreases |s|
  {
    if s != [] {
      assert s[0] in s;
      forall x | x in s[1..] ensures p(x) {
        assert x in s;
      }
      FilterKeepsAll(p, s[1..]);
    }
  }

  /** Putting an element with a smaller key than all of `r` in front keeps the keys strictly increasing. */
  lemma ConsIncreasing<T>(key: T -> int, x: T, r: seq<T>)
    requires forall i, j :: 0 <= i < j < |r| ==> key(r[i]) < key(r[j])
    requires forall y :: y in r ==> key(x) < key(y)
    ensures forall i, j :: 0 <= i < j < |[x] + r| ==> key(([x] + r)[i]) < key(([x] + r)[j])
  {
    var f := [x] + r;
    forall i, j | 0 <= i < j < |f| ensures key(f[i]) < key(f[j]) {
      assert f[j] == r[j - 1];
      if i > 0 {
        assert f[i] == r[i - 1];
      }
    }
  }

  /** Filtering keeps a strictly increasing key strictly increasing. */
  lemma {:induction false} FilterKeepsIncreasing<T(!new)>(p: T -> bool, key: T -> int, s: seq<T>)
    requires forall i, j :: 0 <= i < j < |s| ==> key(s[i]) < key(s[j])
    ensures forall i, j :: 0 <= i < j < |Filter(p, s)| ==> key(Filter(p, s)[i]) < key(Filter(p, s)[j])
    decreases |s|
  {
    if s != [] {
      var t := s[1..];
      forall i, j | 0 <= i < j < |t| ensures key(t[i]) < key(t[j]) {
        assert t[i] == s[i + 1] && t[j] == s[j + 1];
      }
      FilterKeepsIncreasing(p, key, t);
      var r := Filter(p, t);
      if p(s[0]) {
        forall x | x in r ensures key(s[0]) < key(x) {
          var k :| 0 <= k < |t| && t[k] == x;
          assert x == s[k + 1];
        }
        assert Filter(p, s) == [s[0]] + r;
        ConsIncreasing(key, s[0], r);
      } else {
        assert Filter(p, s) == r;
      }
    }
  }

  /** The index of the first element satisfying `p` (a `where … ->first()` / `findOrFail` lookup). */
  function FindFirst<T>(p: T -> bool, s: seq<T>): (r: Option<nat>)
    ensures r.Some? ==> r.value < |s| && p(s[r.value])
    ensures r.Some? ==> forall j :: 0 <= j < r.value ==> !p(s[j])
    ensures r.None? ==> forall j :: 0 <= j < |s| ==> !p(s[j])
  {
    if s == [] then None
    else if p(s[0]) then Some(0)
    else match FindFirst(p, s[1..])
      case None => None
      case Some(k) => Some(k + 1)
  }

  /** The first match is determined by which elements match and which do not. */
  lemma FindFirstIs<T>(p: T -> bool, s: seq<T>, i: nat)
    requires i < |s| && p(s[i])
    requires forall j :: 0 <= j < i ==> !p(s[j])
    ensures FindFirst(p, s) == Some(i)
  {
  }

  /** `Array.prototype.map`. */
  function Map<T, U>(f: T -> U, s: seq<T>): (r: seq<U>)
    ensures |r| == |s|
    ensures forall i :: 0 <= i < |s| ==> r[i] == f(s[i])
  {
    seq(|s|, i requires 0 <= i < |s| => f(s[i]))
  }
}

=== FILE: support.dfy ===
/**
 * Support tickets: a user opens a ticket with a first message, replies to it and closes it.
 * Every lookup is scoped to the caller, so another user's ticket behaves exactly like a missing
 * one. Clock readings and the random ticket code are inputs.
 */
module Support {
  import opened Wrappers
  import opened Users
  import opened Seqs
  import opened Text

  /** A clock reading, as stored in `updated_at` / `last_reply`. */
  type Time = nat

  datatype Priority = Low | Medium | High

  datatype TicketStatus = Open | Replied | Closed

  datatype Message = Message(authorId: UserId, body: string)

  /** A support_tickets row together with its ticket_messages, oldest message first. */
  datatype Ticket = Ticket(
    id: nat,
    userId: UserId,
    number: string,
    subject: string,
    priority: Priority,
    status: TicketStatus,
    lastReply: Option<Time>,
    updatedAt: Time,
    messages: seq<Message>)

  datatype State = State(tickets: seq<Ticket>)

  /** The body of `POST /support/tickets`. */
  datatype NewTicket = NewTicket(subject: string, priority: string, message: string)

  datatype Error =
    | ValidationFailed   // 422
    | NotFound           // 404 from the owner-scoped findOrFail

  /** The `in:Low,Medium,High` rule. */
  function ParsePriority(s: string): (r: Option<Priority>)
    ensures r.Some? <==> s == "Low" || s == "Medium" || s == "High"
    ensures r == Some(Low) <==> s == "Low"
    ensures r == Some(Medium) <==> s == "Medium"
    ensures r == Some(High) <==> s == "High"
  {
    if s == "Low" then Some(Low)
    else if s == "Medium" then Some(Medium)
    else if s == "High" then Some(High)
    else None
  }

  /**
   * `subject` required and at most 255 characters, a known priority, a non-blank message; the
   * rules see the fields as the request-trimming middleware leaves them.
   */
  predicate NewTicketValid(req: NewTicket) {
    && Trim(req.subject) != "" && |Trim(req.subject)| <= 255
    && ParsePriority(Trim(req.priority)).Some?
    && Trim(req.message) != ""
  }

  /** Ids are 1-based insertion positions. */
  predicate WellFormed(s: State) {
    forall i :: 0 <= i < |s.tickets| ==> s.tickets[i].id == i + 1
  }

  /** `SupportTicket::where('user_id', $user)->findOrFail($id)`. */
  function FindOwned(s: State, user: UserId, id: int): (r: Option<nat>)
    ensures r.Some? ==> r.value < |s.tickets| && s.tickets[r.value].id == id && s.tickets[r.value].userId == user
    ensures r.None? ==> forall i :: 0 <= i < |s.tickets| ==> !(s.tickets[i].id == id && s.tickets[i].userId == user)
  {
    FindFirst((t: Ticket) => t.id == id && t.userId == user, s.tickets)
  }

  /** Open a ticket: status Open, the first message as its only message, numbered `TK-` + code. */
  function Store(s: State, user: UserId, req: NewTicket, code: string, now: Time): (r: Result<State, Error>)
    ensures r.Success? <==> NewTicketValid(req)
    ensures r.Failure? ==> r.error == ValidationFailed
    ensures r.Success? ==>
      && |r.value.tickets| == |s.tickets| + 1
      && r.value.tickets[..|s.tickets|] == s.tickets
      && var t := r.value.tickets[|s.tickets|];
         && t.id == |s.tickets| + 1 && t.userId == user
         && t.status == Open && t.messages == [Message(user, Trim(req.message))]
         && t.subject == Trim(req.subject) && t.priority == ParsePriority(Trim(req.priority)).value
         && |t.number| >= 3 && t.number[..3] == "TK-" && t.lastReply == None && t.updatedAt == now
  {
    if !NewTicketValid(req) then Failure(ValidationFailed)
    else
      var t := Ticket(|s.tickets| + 1, user, "TK-" + ToUpper(code), Trim(req.subject),
                      ParsePriority(Trim(req.priority)).value, Open, None, now, [Message(user, Trim(req.message))]);
      Success(State(s.tickets + [t]))
  }

  /** `GET /support/tickets/{id}`: the caller's ticket with that id, with its messages. */
  function Show(s: State, user: UserId, id: int): (r: Result<Ticket, Error>)
    ensures r.Success? <==> exists i :: 0 <= i < |s.tickets| && s.tickets[i].id == id && s.tickets[i].userId == user
    ensures r.Failure? ==> r.error == NotFound
    ensures r.Success? ==> r.value in s.tickets && r.value.id == id && r.value.userId == user
  {
    match FindOwned(s, user, id)
    case None => Failure(NotFound)
    case Some(i) => Success(s.tickets[i])
  }

  /**
   * Append the caller's message to their ticket and mark it Replied. There is no status guard:
   * a Closed ticket is reopened as Replied.
   */
  function Reply(s: State, user: UserId, id: int, message: string, now: Time): (r: Result<State, Error>)
    ensures FindOwned(s, user, id).None? ==> r == Failure(NotFound)
    ensures FindOwned(s, user, id).Some? ==> (r.Success? <==> Trim(message) != "")
    ensures FindOwned(s, user, id).Some? && Trim(message) == "" ==> r == Failure(ValidationFailed)
    ensures r.Success? ==> |r.value.tickets| == |s.tickets|
    ensures r.Success? ==>
      var i := FindOwned(s, user, id).value;
      var before, after := s.tickets[i], r.value.tickets[i];
      && after.messages == before.messages + [Message(user, Trim(message))]
      && after.status == Replied && after.lastReply == Some(now) && after.updatedAt == now
      && after.(messages := before.messages, status := before.status,
                lastReply := before.lastReply, updatedAt := before.updatedAt) == before
      && forall j :: 0 <= j < |s.tickets| && j != i ==> r.value.tickets[j] == s.tickets[j]
  {
    match FindOwned(s, user, id)
    case None => Failure(NotFound)
    case Some(i) =>
      if Trim(message) == "" then Failure(ValidationFailed)
      else
        var t := s.tickets[i];
        var t' := t.(messages := t.messages + [Message(user, Trim(message))], status := Replied,
                     lastReply := Some(now), updatedAt := now);
        Success(State(s.tickets[i := t']))
  }

  /**
   * Mark the caller's ticket Closed. Saving bumps `updated_at` only when the status actually
   * changes; nothing else about the ticket changes.
   */
  function Close(s: State, user: UserId, id: int, now: Time): (r: Result<State, Error>)
    ensures r.Success? <==> FindOwned(s, user, id).Some?
    ensures r.Failure? ==> r.error == NotFound
    ensures r.Success? ==> |r.value.tickets| == |s.tickets|
    ensures r.Success? ==>
      var i := FindOwned(s, user, id).value;
      var before, after := s.tickets[i], r.value.tickets[i];
      && after.status == Closed
      && after.messages == before.messages
      && after.updatedAt == (if before.status == Closed then before.updatedAt else now)
      && after.(status := before.status, updatedAt := before.updatedAt) == before
      && forall j :: 0 <= j < |s.tickets| && j != i ==> r.value.tickets[j] == s.tickets[j]
  {
    match FindOwned(s, user, id)
    case None => Failure(NotFound)
    case Some(i) =>
      var t := s.tickets[i];
      var t' := if t.status == Closed then t else t.(status := Closed, updatedAt := now);
      Success(State(s.tickets[i := t']))
  }

  /** New tickets take the next id, and reply and close change no id. */
  lemma OperationsKeepWellFormed(s: State, user: UserId, req: NewTicket, code: string, id: int, message: string, now: Time)
    requires WellFormed(s)
    ensures Store(s, user, req, code, now).Success? ==> WellFormed(Store(s, user, req, code, now).value)
    ensures Reply(s, user, id, message, now).Success? ==> WellFormed(Reply(s, user, id, message, now).value)
    ensures Close(s, user, id, now).Success? ==> WellFormed(Close(s, user, id, now).value)
  {
  }

  /** Whatever another user asks about a ticket that is not theirs, the answer is "not found". */
  lemma ForeignTicketIsNotFound(s: State, owner: UserId, caller: UserId, id: int, message: string, now: Time)
    requires WellFormed(s) && caller != owner
    requires exists i :: 0 <= i < |s.tickets| && s.tickets[i].id == id && s.tickets[i].userId == owner
    ensures Show(s, caller, id) == Failure(NotFound)
    ensures Reply(s, caller, id, message, now) == Failure(NotFound)
    ensures Close(s, caller, id, now) == Failure(NotFound)
  {
  }

  /** A Closed ticket that receives a reply becomes Replied again. */
  lemma ReplyReopensClosed(s: State, user: UserId, id: int, message: string, now: Time)
    requires Trim(message) != ""
    requires Close(s, user, id, now).Success?
    ensures var closed := Close(s, user, id, now).value;
      var i := FindOwned(s, user, id).value;
      && closed.tickets[i].status == Closed
      && Reply(closed, user, id, message, now).Success?
      && Reply(closed, user, id, message, now).value.tickets[i].status == Replied
  {
    var i := FindOwned(s, user, id).value;
    var closed := Close(s, user, id, now).value;
    FindFirstIs((t: Ticket) => t.id == id && t.userId == user, closed.tickets, i);
  }

  // ---------------------------------------------------------------- index

  /** Non-increasing `updated_at`: newest first. */
  predicate NewestFirst(ts: seq<Ticket>) {
    forall i, j :: 0 <= i < j < |ts| ==> ts[i].updatedAt >= ts[j].updatedAt
  }

  lemma TailNewestFirst(ts: seq<Ticket>)
    requires ts != [] && NewestFirst(ts)
    ensures NewestFirst(ts[1..])
    ensures forall x :: x in ts[1..] ==> ts[0].updatedAt >= x.updatedAt
  {
    forall i, j | 0 <= i < j < |ts| - 1 ensures ts[1..][i].updatedAt >= ts[1..][j].updatedAt {
      assert ts[1..][i] == ts[i + 1] && ts[1..][j] == ts[j + 1];
    }
  }

  /** A ticket updated no earlier than every ticket of a sorted list can go in front of it. */
  lemma ConsNewestFirst(t: Ticket, ts: seq<Ticket>)
    requires NewestFirst(ts)
    requires forall x :: x in ts ==> t.updatedAt >= x.updatedAt
    ensures NewestFirst([t] + ts)
  {
    var r := [t] + ts;
    forall i, j | 0 <= i < j < |r| ensures r[i].updatedAt >= r[j].updatedAt {
      assert r[j] == ts[j - 1];
      if i > 0 {
        assert r[i] == ts[i - 1];
      }
    }
  }

  /** Put `t` in front of the first ticket updated no later than it. */
  function Insert(t: Ticket, ts: seq<Ticket>): (r: seq<Ticket>)
    requires NewestFirst(ts)
    ensures NewestFirst(r)
    ensures multiset(r) == multiset(ts) + multiset{t}
  {
    if ts == [] then
      [t]
    else if t.updatedAt >= ts[0].updatedAt then
      TailNewestFirst(ts);
      assert ts == [ts[0]] + ts[1..];
      ConsNewestFirst(t, ts);
      [t] + ts
    else
      TailNewestFirst(ts);
      var rest := Insert(t, ts[1..]);
      assert ts == [ts[0]] + ts[1..];
      forall x | x in rest ensures ts[0].updatedAt >= x.updatedAt {
        assert x in multiset(rest);
        if x != t {
          assert x in multiset(ts[1..]);
        }
      }
      ConsNewestFirst(ts[0], rest);
      [ts[0]] + rest
  }

  /** Order tickets by `updated_at`, newest first (`orderBy('updated_at', 'desc')`). */
  function SortNewestFirst(ts: seq<Ticket>): (r: seq<Ticket>)
    ensures NewestFirst(r)
    ensures multiset(r) == multiset(ts)
  {
    if ts == [] then []
    else
      assert ts == [ts[0]] + ts[1..];
      Insert(ts[0], SortNewestFirst(ts[1..]))
  }

  /** The sort is stable: of two tickets updated at the same time, the earlier-listed one stays first. */
  lemma SortKeepsTieOrder(a: Ticket, b: Ticket)
    requires a.updatedAt == b.updatedAt
    ensures SortNewestFirst([a, b]) == [a, b]
  {
    assert [a, b][1..] == [b];
  }

  /** `GET /support/tickets`: exactly the caller's tickets, newest first. */
  function Index(s: State, user: UserId): (r: seq<Ticket>)
    ensures NewestFirst(r)
    ensures forall t :: t in r <==> t in s.tickets && t.userId == user
    ensures multiset(r) == multiset(Filter((t: Ticket) => t.userId == user, s.tickets))
  {
    var mine := Filter((t: Ticket) => t.userId == user, s.tickets);
    var r := SortNewestFirst(mine);
    assert forall t :: t in r <==> t in multiset(mine);
    r
  }
}

=== FILE: text.dfy ===
/** The few string operations the handlers use, on `seq<char>`. */
module Text {

  /** `sub` occurs in `s` starting at offset `i`. */
  predicate OccursAt(s: string, sub: string, i: int) {
    0 <= i && i + |sub| <= |s| && s[i..i + |sub|] == sub
  }

  /** JavaScript's `String.prototype.includes`: `sub` occurs somewhere in `s`. */
  predicate Contains(s: string, sub: string) {
    exists i | 0 <= i <= |s| - |sub| :: OccursAt(s, sub, i)
  }

  predicate IsDigit(c: char) {
    '0' <= c <= '9'
  }

  function DigitChar(d: nat): (c: char)
    requires d < 10
    ensures IsDigit(c)
  {
    "0123456789"[d]
  }

  /** `Number.prototype.toString()` of a non-negative integer: its decimal digits, no leading zero. */
  function DecimalString(n: nat): (r: string)
    ensures 1 <= |r|
    ensures forall i :: 0 <= i < |r| ==> IsDigit(r[i])
    ensures |r| > 1 ==> r[0] != '0'
    ensures n < 10 <==> |r| == 1
  {
    if n < 10 then [DigitChar(n)] else DecimalString(n / 10) + [DigitChar(n % 10)]
  }

  predicate IsUpper(c: char) {
    'A' <= c <= 'Z'
  }

  predicate IsLower(c: char) {
    'a' <= c <= 'z'
  }

  function LowerChar(c: char): char {
    if IsUpper(c) then (c as int - 'A' as int + 'a' as int) as char else c
  }

  function UpperChar(c: char): char {
    if IsLower(c) then (c as int - 'a' as int + 'A' as int) as char else c
  }

  /** `toLowerCase()` / `strtolower` on the ASCII letters; every other character is kept. */
  function ToLower(s: string): (r: string)
    ensures |r| == |s|
    ensures forall i :: 0 <= i < |s| ==> !IsUpper(r[i])
    ensures forall i :: 0 <= i < |s| ==> !IsUpper(s[i]) ==> r[i] == s[i]
  {
    seq(|s|, i requires 0 <= i < |s| => LowerChar(s[i]))
  }

  /** `strtoupper` on the ASCII letters; every other character is kept. */
  function ToUpper(s: string): (r: string)
    ensures |r| == |s|
    ensures forall i :: 0 <= i < |s| ==> !IsLower(r[i])
    ensures forall i :: 0 <= i < |s| ==> !IsLower(s[i]) ==> r[i] == s[i]
  {
    seq(|s|, i requires 0 <= i < |s| => UpperChar(s[i]))
  }

  // ---------------------------------------------------------------- request trimming

  /**
   * The characters Laravel's `TrimStrings` middleware strips from both ends of every request
   * string: ASCII white space, the zero-width no-break space and the zero-width space.
   */
  predicate IsSpace(c: char) {
    c == ' ' || c == '\t' || c == '\n' || c == '\U{B}' || c == '\U{C}' || c == '\r'
    || c == '\U{FEFF}' || c == '\U{200B}'
  }

  /** `s` without its leading white space: the longest suffix that does not start with a space. */
  function TrimStart(s: string): (r: string)
    ensures |r| <= |s| && r == s[|s| - |r|..]
    ensures forall k :: 0 <= k < |s| - |r| ==> IsSpace(s[k])
    ensures r != [] ==> !IsSpace(r[0])
  {
    if s != [] && IsSpace(s[0]) then TrimStart(s[1..]) else s
  }

  /** `s` without its trailing white space: the longest prefix that does not end with a space. */
  function TrimEnd(s: string): (r: string)
    ensures |r| <= |s| && r == s[..|r|]
    ensures forall k :: |r| <= k < |s| ==> IsSpace(s[k])
    ensures r != [] ==> !IsSpace(r[|r| - 1])
  {
    if s != [] && IsSpace(s[|s| - 1]) then TrimEnd(s[..|s| - 1]) else s
  }

  /** `s` is `r` with only white space added at the front (`i` characters) and at the back. */
  predicate PaddedAt(s: string, r: string, i: int) {
    && 0 <= i && i + |r| <= |s| && s[i..i + |r|] == r
    && (forall k :: 0 <= k < i ==> IsSpace(s[k]))
    && (forall k :: i + |r| <= k < |s| ==> IsSpace(s[k]))
  }

  /** What `TrimStrings` leaves of a request string: the middle part between the white space at the ends. */
  function Trim(s: string): (r: string)
    ensures |r| <= |s|
    ensures r != [] ==> !IsSpace(r[0]) && !IsSpace(r[|r| - 1])
  {
    TrimEnd(TrimStart(s))
  }

  /**
   * Trimming removes white space at the ends and nothing else: `s` is the result padded with
   * white space, and only an all-white-space string trims to the empty string.
   */
  lemma TrimSpec(s: string)
    ensures exists i :: PaddedAt(s, Trim(s), i)
    ensures Trim(s) == [] <==> forall k :: 0 <= k < |s| ==> IsSpace(s[k])
  {
    var a := TrimStart(s);
    var r := TrimEnd(a);
    var i := |s| - |a|;
    assert r == Trim(s);
    assert forall k :: i <= k < |s| ==> s[k] == a[k - i];
    assert PaddedAt(s, r, i);
  }

  /** A string with no white space at either end reaches the controller as it was sent. */
  lemma TrimKeeps(s: string)
    requires s == [] || (!IsSpace(s[0]) && !IsSpace(s[|s| - 1]))
    ensures Trim(s) == s
  {
  }
}

=== FILE: transaction_filter.dfy ===
/**
 * The client-side filter of the transaction history page. A transaction is seen as the JSON
 * object the page received; absent, null and empty-string fields are all falsy there, and
 * `Option` keeps them apart only where `===` can tell them apart.
 */
module TransactionFilter {
  import opened Wrappers
  import opened Seqs
  import opened Text
  import Ledger

  /** A transaction as the page sees it. */
  datatype Record = Record(
    id: nat,
    uuid: Option<string>,
    kind: string,
    fromAccount: string,
    toAccount: string,
    remark: Option<string>,
    symbol: Option<string>,
    details: Option<string>)

  /** The four filter inputs: a free-text transaction number and three drop-downs ('All' = no filter). */
  datatype Criteria = Criteria(trxNumber: string, kind: string, remark: string, stock: string)

  /** JavaScript truthiness of an optional string. */
  predicate Truthy(o: Option<string>) {
    o.Some? && o.value != ""
  }

  /** The id's decimal form, or a truthy uuid, contains the typed number. */
  predicate MatchesNumber(trxNumber: string, t: Record) {
    Contains(DecimalString(t.id), trxNumber) || (Truthy(t.uuid) && Contains(t.uuid.value, trxNumber))
  }

  /** 'Plus': money coming in — a deposit, or anything into funding. */
  predicate IsPlus(t: Record) {
    t.kind == "deposit" || t.toAccount == "funding"
  }

  /** 'Minus': money going out — a withdrawal, or anything out of funding. */
  predicate IsMinus(t: Record) {
    t.kind == "withdraw" || t.fromAccount == "funding"
  }

  /** The record's own remark equals the selection, or it has none and its type is the lower-cased selection. */
  predicate MatchesRemark(remark: string, t: Record) {
    (Truthy(t.remark) && t.remark.value == remark) || (!Truthy(t.remark) && t.kind == ToLower(remark))
  }

  /** The record's symbol is the selected stock, or its truthy details mention it. */
  predicate MatchesStock(stock: string, t: Record) {
    (t.symbol == Some(stock)) || (Truthy(t.details) && Contains(t.details.value, stock))
  }

  function NumberMatcher(trxNumber: string): Record -> bool {
    t => MatchesNumber(trxNumber, t)
  }

  function RemarkMatcher(remark: string): Record -> bool {
    t => MatchesRemark(remark, t)
  }

  function StockMatcher(stock: string): Record -> bool {
    t => MatchesStock(stock, t)
  }

  function ByNumber(ts: seq<Record>, trxNumber: string): seq<Record> {
    if trxNumber != "" then Filter(NumberMatcher(trxNumber), ts) else ts
  }

  function ByKind(ts: seq<Record>, kind: string): seq<Record> {
    if kind != "All" then
      if kind == "Plus" then Filter(IsPlus, ts)
      else if kind == "Minus" then Filter(IsMinus, ts)
      else ts
    else ts
  }

  function ByRemark(ts: seq<Record>, remark: string): seq<Record> {
    if remark != "All" then Filter(RemarkMatcher(remark), ts) else ts
  }

  function ByStock(ts: seq<Record>, stock: string): seq<Record> {
    if stock != "All" then Filter(StockMatcher(stock), ts) else ts
  }

  /** `handleFilter`: the four filters applied one after the other, each only when its input is set. */
  function HandleFilter(ts: seq<Record>, c: Criteria): seq<Record> {
    ByStock(ByRemark(ByKind(ByNumber(ts, c.trxNumber), c.kind), c.remark), c.stock)
  }

  predicate NumberOk(c: Criteria, t: Record) {
    c.trxNumber != "" ==> MatchesNumber(c.trxNumber, t)
  }

  predicate KindOk(c: Criteria, t: Record) {
    (c.kind == "Plus" ==> IsPlus(t)) && (c.kind == "Minus" ==> IsMinus(t))
  }

  predicate RemarkOk(c: Criteria, t: Record) {
    c.remark != "All" ==> MatchesRemark(c.remark, t)
  }

  predicate StockOk(c: Criteria, t: Record) {
    c.stock != "All" ==> MatchesStock(c.stock, t)
  }

  /** The reference meaning of the criteria: a record is shown iff every active criterion accepts it. */
  predicate Selected(c: Criteria, t: Record) {
    NumberOk(c, t) && KindOk(c, t) && RemarkOk(c, t) && StockOk(c, t)
  }

  /** A stage that is switched off keeps everything; one that is on filters by its predicate. */
  lemma StageIsFilter(on: bool, m: Record -> bool, sel: Record -> bool, s: seq<Record>)
    requires forall x :: sel(x) == (on ==> m(x))
    ensures (if on then Filter(m, s) else s) == Filter(sel, s)
  {
    if on {
      FilterCongruent(m, sel, s);
    } else {
      FilterKeepsAll(sel, s);
    }
  }

  lemma ByKindIsFilter(s: seq<Record>, kind: string)
    ensures ByKind(s, kind) == Filter((t: Record) => (kind == "Plus" ==> IsPlus(t)) && (kind == "Minus" ==> IsMinus(t)), s)
  {
    var sel := (t: Record) => (kind == "Plus" ==> IsPlus(t)) && (kind == "Minus" ==> IsMinus(t));
    if kind == "Plus" {
      FilterCongruent(IsPlus, sel, s);
    } else if kind == "Minus" {
      FilterCongruent(IsMinus, sel, s);
    } else {
      FilterKeepsAll(sel, s);
    }
  }

  /** The criteria one stage at a time, as predicates. */
  function NumberSel(c: Criteria): Record -> bool {
    t => NumberOk(c, t)
  }

  function KindSel(c: Criteria): Record -> bool {
    t => KindOk(c, t)
  }

  function RemarkSel(c: Criteria): Record -> bool {
    t => RemarkOk(c, t)
  }

  function StockSel(c: Criteria): Record -> bool {
    t => StockOk(c, t)
  }

  function UpToKind(c: Criteria): Record -> bool {
    t => NumberOk(c, t) && KindOk(c, t)
  }

  function UpToRemark(c: Criteria): Record -> bool {
    t => NumberOk(c, t) && KindOk(c, t) && RemarkOk(c, t)
  }

  function SelectedBy(c: Criteria): Record -> bool {
    t => Selected(c, t)
  }

  lemma NumberStage(ts: seq<Record>, c: Criteria)
    ensures ByNumber(ts, c.trxNumber) == Filter(NumberSel(c), ts)
  {
    StageIsFilter(c.trxNumber != "", NumberMatcher(c.trxNumber), NumberSel(c), ts);
  }

  lemma KindStage(ts: seq<Record>, c: Criteria)
    ensures ByKind(Filter(NumberSel(c), ts), c.kind) == Filter(UpToKind(c), ts)
  {
    var a := Filter(NumberSel(c), ts);
    ByKindIsFilter(a, c.kind);
    FilterCongruent((t: Record) => (c.kind == "Plus" ==> IsPlus(t)) && (c.kind == "Minus" ==> IsMinus(t)), KindSel(c), a);
    FilterFilter(NumberSel(c), KindSel(c), UpToKind(c), ts);
  }

  lemma RemarkStage(ts: seq<Record>, c: Criteria)
    ensures ByRemark(Filter(UpToKind(c), ts), c.remark) == Filter(UpToRemark(c), ts)
  {
    StageIsFilter(c.remark != "All", RemarkMatcher(c.remark), RemarkSel(c), Filter(UpToKind(c), ts));
    FilterFilter(UpToKind(c), RemarkSel(c), UpToRemark(c), ts);
  }

  lemma StockStage(ts: seq<Record>, c: Criteria)
    ensures ByStock(Filter(UpToRemark(c), ts), c.stock) == Filter(SelectedBy(c), ts)
  {
    StageIsFilter(c.stock != "All", StockMatcher(c.stock), StockSel(c), Filter(UpToRemark(c), ts));
    FilterFilter(UpToRemark(c), StockSel(c), SelectedBy(c), ts);
  }

  /** The staged pipeline selects exactly the records the reference predicate accepts, in input order. */
  lemma HandleFilterIsSelection(ts: seq<Record>, c: Criteria)
    ensures HandleFilter(ts, c) == Filter(SelectedBy(c), ts)
  {
    NumberStage(ts, c);
    KindStage(ts, c);
    RemarkStage(ts, c);
    StockStage(ts, c);
  }

  /** The filter keeps, in their original order, exactly the records every active criterion accepts. */
  lemma HandleFilterSpec(ts: seq<Record>, c: Criteria)
    ensures IsSubsequence(HandleFilter(ts, c), ts)
    ensures forall t :: t in HandleFilter(ts, c) <==> t in ts && Selected(c, t)
  {
    HandleFilterIsSelection(ts, c);
    FilterIsSubsequence(SelectedBy(c), ts);
  }

  /** An empty number and 'All' everywhere shows the whole list. */
  lemma NoCriteriaKeepsAll(ts: seq<Record>)
    ensures HandleFilter(ts, Criteria("", "All", "All", "All")) == ts
  {
  }

  /** Each criterion alone keeps exactly the records its test accepts. */
  lemma SingleCriterion(ts: seq<Record>, number: string, remark: string, stock: string)
    requires number != "" && remark != "All" && stock != "All"
    ensures forall t :: t in HandleFilter(ts, Criteria(number, "All", "All", "All")) <==>
      t in ts && (Contains(DecimalString(t.id), number) || (Truthy(t.uuid) && Contains(t.uuid.value, number)))
    ensures forall t :: t in HandleFilter(ts, Criteria("", "Plus", "All", "All")) <==>
      t in ts && (t.kind == "deposit" || t.toAccount == "funding")
    ensures forall t :: t in HandleFilter(ts, Criteria("", "Minus", "All", "All")) <==>
      t in ts && (t.kind == "withdraw" || t.fromAccount == "funding")
    ensures forall t :: t in HandleFilter(ts, Criteria("", "All", remark, "All")) <==>
      t in ts && ((Truthy(t.remark) && t.remark.value == remark) || (!Truthy(t.remark) && t.kind == ToLower(remark)))
    ensures forall t :: t in HandleFilter(ts, Criteria("", "All", "All", stock)) <==>
      t in ts && (t.symbol == Some(stock) || (Truthy(t.details) && Contains(t.details.value, stock)))
  {
    HandleFilterSpec(ts, Criteria(number, "All", "All", "All"));
    HandleFilterSpec(ts, Criteria("", "Plus", "All", "All"));
    HandleFilterSpec(ts, Criteria("", "Minus", "All", "All"));
    HandleFilterSpec(ts, Criteria("", "All", remark, "All"));
    HandleFilterSpec(ts, Criteria("", "All", "All", stock));
  }

  // ---------------------------------------------------------------- rows served by the backend

  function TypeName(k: Ledger.TxType): string {
    match k
    case Deposit => "deposit"
    case Transfer => "transfer"
    case Withdraw => "withdraw"
  }

  /** A ledger row as JSON: the backend sends no uuid, remark, symbol or details. */
  function View(t: Ledger.Transaction): Record {
    Record(t.id, None, TypeName(t.kind), Ledger.EndpointName(t.from), Ledger.EndpointName(t.to), None, None, None)
  }

  /** Every ledger row shows up in the page's list. */
  lemma ViewListed(rows: seq<Ledger.Transaction>)
    ensures forall t :: t in rows ==> View(t) in Map(View, rows)
  {
    forall t | t in rows ensures View(t) in Map(View, rows) {
      var k :| 0 <= k < |rows| && rows[k] == t;
      assert Map(View, rows)[k] == View(t);
    }
  }

  /** A backend row has no remark, so the remark 'Deposit' selects by type: exactly the deposits. */
  lemma LedgerRowsByRemark(vs: seq<Record>)
    requires forall t :: t in vs ==> t.remark == None
    ensures forall t :: t in HandleFilter(vs, Criteria("", "All", "Deposit", "All")) <==> t in vs && t.kind == "deposit"
  {
    HandleFilterSpec(vs, Criteria("", "All", "Deposit", "All"));
    assert ToLower("Deposit") == "deposit";
  }

  /**
   * On the backend's own rows the remark drop-down selects by type ('Deposit' keeps the
   * deposits) and 'Plus' keeps the deposits and the transfers into funding.
   */
  lemma LedgerRowsByRemarkAndKind(rows: seq<Ledger.Transaction>)
    ensures forall t :: t in HandleFilter(Map(View, rows), Criteria("", "All", "Deposit", "All")) <==>
      t in Map(View, rows) && t.kind == "deposit"
    ensures forall t :: t in rows ==>
      (View(t) in HandleFilter(Map(View, rows), Criteria("", "Plus", "All", "All")) <==>
       t.kind == Ledger.Deposit || t.to == Ledger.Funding)
  {
    var vs := Map(View, rows);
    LedgerRowsByRemark(vs);
    HandleFilterSpec(vs, Criteria("", "Plus", "All", "All"));
    ViewListed(rows);
  }
}

=== FILE: users.dfy ===
/** Identity shared by every controller: the primary key of a users row. */
module Users {
  type UserId = nat
}

=== FILE: wrappers.dfy ===
/** Result types shared by every controller model. */
module Wrappers {

  /** A value that may be absent: a nullable column or an optional request field. */
  datatype Option<+T> = None | Some(value: T)

  /** The outcome of a request handler: the new state (or a response value) or the error response. */
  datatype Result<+T, +E> = Success(value: T) | Failure(error: E)
}
